=== FILE: README.md ===
# NiNi Digital Media site: inquiry store and input checks

A Dafny model of the only stateful logic of the agency's website: the
client-side inquiry store that the contact form writes and the admin
dashboard reads and edits, the dashboard's mock session and settings, the
keystroke filters and submit guards of the contact and login forms, and the
portfolio grid's category filter.

Storage is a value (`Records.Storage`) with one slot per local-storage key
(`nini_user`, `nini_inquiries`, `nini_settings`); a slot is `Absent`,
`Corrupt` (the text does not parse) or `Stored(value)`. The clock, the
network outcome and the formatted date are parameters. Inquiry ids come
from the clock and may repeat, so no property assumes they are unique:
every statement speaks of all entries carrying an id.

Modules:

- `Seqs`: `Array.prototype.filter` and the subsequence relation it
  establishes; filtering keeps every passing element with its multiplicity,
  in order, and its length is the number of passing positions.
- `Chars`: ECMAScript's `\s` / `trim` whitespace set, the bracket classes
  of the site's patterns, `/^[...]*$/.test` (`Matches`),
  `replace(/[^...]/g, "")` (`Strip`) and `trim` (`Trim`).
- `Records`: `Inquiry`, `Session`, `Credentials`, `Settings`, storage slots.
- `Inquiries`: `markAsRead`, `deleteInquiry`, the list update of
  `handleSendResponse`, and the dashboard counters.
- `Dashboard`: the admin page's state, its mount effect and its handlers.
- `Contact`, `Login`, `Portfolio`: the three forms and the filter.
- `Flows`: what the login and contact forms store is what the dashboard
  loads.

Three behaviours of the code are easy to misread:

- The contact form stores a `phone` field that the dashboard's `Inquiry`
  interface (components/sections/admin.tsx:26-36) omits. The dashboard's
  object spreads keep it, so the model's `Inquiry` carries it.
- The comment "Save locally as fallback / for dashboard"
  (components/sections/contact.tsx:108) suggests a save only when the post
  fails, but the stored inquiry list is written after every complete
  submission whose stored list parses, including one the server accepted.
  When the stored list does not parse, the save throws, the error is
  swallowed and nothing is written, although the alert for a refused or
  failed post has already said the message was saved locally
  (`Contact.CorruptListStillSaysSaved`).
- "All" heads the `categories` buttons (components/sections/portfolio.tsx:9)
  but is not the category of any item in the table that follows
  (components/sections/portfolio.tsx:11-76), yet filtering by it shows every
  item. So `Portfolio.UnknownFilterShowsNothing` excludes it.

## Model

| member | source | states |
|---|---|---|
| Seqs.FilterSpec | components/sections/admin.tsx:115 | `filter` returns a subsequence of its input that holds every passing element as often as the input does, and nothing else |
| Seqs.FilterIsSubsequence | components/sections/admin.tsx:115 | `filter` keeps what it keeps in the input's order |
| Seqs.FilterMultisetBound | components/sections/admin.tsx:115 | `filter` never adds an occurrence of any element |
| Seqs.FilterMultiplicity | components/sections/admin.tsx:115 | every element that passes occurs in the result as often as in the input |
| Seqs.Filter | components/sections/admin.tsx:115 | `Array.prototype.filter`: every element of the result passes, and the result is never longer than the input |
| Seqs.FilterLength | components/sections/admin.tsx:163 | the length of a filtered list is the number of positions whose element passes |
| Chars.Matches | components/sections/contact.tsx:56-57 | a full-string test of a bracket class holds exactly when every character belongs to the class |
| Chars.Strip | components/sections/admin.tsx:450 | the global replace of non-members leaves only class members, keeps each member character with its multiplicity, in order |
| Chars.StripFixesExactlyMatches | components/sections/admin.tsx:509 | stripping leaves a string unchanged exactly when every character already belongs to the class |
| Chars.StripIdempotent | components/sections/admin.tsx:450 | stripping twice equals stripping once |
| Chars.Trim | components/sections/admin.tsx:132 | `trim` yields the slice of the input between its leading and trailing whitespace; it is empty exactly when the input is all whitespace, and otherwise starts and ends with non-whitespace |
| Chars.TrimIdempotent | components/sections/admin.tsx:132 | trimming twice equals trimming once |
| Inquiries.MarkRead | components/sections/admin.tsx:106-112 | same length; entries with another id are unchanged; every entry with the id is read, with all its other fields unchanged |
| Inquiries.MarkReadIdempotent | components/sections/admin.tsx:107-109 | marking an id read twice equals marking it once |
| Inquiries.MarkReadUnread | components/sections/admin.tsx:106-112 | afterwards the unread positions are exactly those unread before whose id differs; the unread counter never rises |
| Inquiries.Delete | components/sections/admin.tsx:114-118 | no entry with the id remains; every entry with another id is kept as often as before, in the original relative order |
| Inquiries.DeleteLength | components/sections/admin.tsx:114-118 | the length drops by exactly the number of entries carrying the id |
| Inquiries.DeleteUnread | components/sections/admin.tsx:114-118 | deleting never raises the unread counter |
| Inquiries.DeleteAfterMarkRead | components/sections/admin.tsx:106-118 | marking an id read and then deleting it equals deleting it |
| Inquiries.Respond | components/sections/admin.tsx:135-144 | same length; entries with another id are unchanged; every entry with the id gets the reply, the time and the read status, and nothing else of it changes |
| Inquiries.MarkReadAfterRespond | components/sections/admin.tsx:135-144 | a replied-to entry is already read: marking it read changes nothing |
| Inquiries.RespondUnread | components/sections/admin.tsx:135-144 | replying affects the unread entries exactly as marking read does |
| Inquiries.UnreadCount | components/sections/admin.tsx:163 | the length of the unread filter never exceeds the list length |
| Inquiries.UnreadCountIsIndexCount | components/sections/admin.tsx:163 | the unread counter equals the number of positions holding an unread entry |
| Inquiries.Stats | components/sections/admin.tsx:160-163 | total leads is the list length, revenue is exactly 850 per lead, unread is the number of unread positions and never exceeds the leads |
| Inquiries.PrependUnread | components/sections/contact.tsx:119-121 | prepending an unread entry raises both the lead and the unread counters by one |
| Dashboard.LoadInquiries | components/sections/admin.tsx:72-82 | a missing or unparsable stored list loads as the empty list |
| Dashboard.Mount | components/sections/admin.tsx:60-93 | a stored signed-in user authenticates and lends its email to the settings; parsable stored settings replace them; an unparsable user blob throws |
| Dashboard.Login | components/sections/admin.tsx:95-98 | called only after the login form has stored the signed-in user; authenticated, with the session email equal to the credential email, a reload from the unchanged storage agreeing with the screen; list, settings and open panel unchanged |
| Dashboard.Logout | components/sections/admin.tsx:100-104 | not authenticated, no session, stored user removed; list, settings and open panel unchanged |
| Dashboard.MarkRead | components/sections/admin.tsx:106-112 | entries with the id become read with nothing else of them changed, others are unchanged, the stored list equals the one on screen, and nothing but the list and its storage key changes |
| Dashboard.Delete | components/sections/admin.tsx:114-118 | no entry with the id remains, every other entry survives as often as before and in order, the length drops by their number, and nothing but the list and its storage key changes |
| Dashboard.Open | components/sections/admin.tsx:120-123 | selects the inquiry; the reply box starts from its stored reply or empty; nothing else changes |
| Dashboard.Close | components/sections/admin.tsx:125-128 | clears the selection and the reply box; nothing else changes |
| Dashboard.SendResponse | components/sections/admin.tsx:130-150 | a no-op without a selection or with a blank reply; otherwise entries with the selected id get the trimmed reply, the time and read with nothing else of them changed, others are unchanged, the list is saved, the panel closes, and nothing else changes |
| Dashboard.MarkSelectedRead | components/sections/admin.tsx:359-363 | without a selection nothing changes; otherwise entries with the selected id are read with nothing else of them changed, others unchanged, and only the list and its storage key change |
| Dashboard.DeleteSelected | components/sections/admin.tsx:369-373 | without a selection nothing changes; otherwise the selected id is deleted and saved, the selection cleared, and nothing else changes |
| Dashboard.SaveSettings | components/sections/admin.tsx:152-157 | the settings are stored; a present session takes the settings email, an absent one stays absent; list, selection and reply box unchanged |
| Dashboard.EditName | components/sections/admin.tsx:446-452 | the stored name holds only ASCII letters and spaces, keeps every typed letter and space as often as typed and in order, and nothing else changes |
| Dashboard.EditPhone | components/sections/admin.tsx:505-511 | the stored phone holds only decimal digits, keeps every typed digit as often as typed and in order, and nothing else changes |
| Dashboard.EditNameIdempotent | components/sections/admin.tsx:450 | re-entering the name the field shows changes nothing |
| Dashboard.EditPhoneIdempotent | components/sections/admin.tsx:509 | re-entering the phone the field shows changes nothing |
| Dashboard.ReloadRestoresInquiries | components/sections/admin.tsx:72-82 | after any handler that saved the list, a reload shows the same list |
| Dashboard.ReloadRestoresSettings | components/sections/admin.tsx:84-92 | after saving settings, a reload shows the saved settings |
| Dashboard.ReloadAfterLogout | components/sections/admin.tsx:100-104 | after logging out, a reload is unauthenticated with no session |
| Dashboard.CountersMonotone | components/sections/admin.tsx:160-163 | unread never exceeds leads, and marking read, replying and deleting never raise the unread counter |
| Contact.OrNull | components/sections/contact.tsx:81-82 | an empty string becomes null and any other value is kept verbatim |
| Contact.ChangeName | components/sections/contact.tsx:54-60 | the edit is taken exactly when every character is an ASCII letter or whitespace; otherwise the form is unchanged |
| Contact.ChangePhone | components/sections/contact.tsx:61-67 | the edit is taken exactly when every character is a digit, `+`, `-`, whitespace, `(` or `)`; otherwise the form is unchanged |
| Contact.EditsKeepWellFormed | components/sections/contact.tsx:54-67 | name and phone always hold only characters their filters admit |
| Contact.Complete | components/sections/contact.tsx:71-74 | the guard passes exactly when name, email and message are all non-empty; a reset form never passes |
| Contact.LocalEntry | components/sections/contact.tsx:111-120 | the saved entry copies name, email and message, nulls an empty phone or company, and is unread with no reply |
| Contact.Prepend | components/sections/contact.tsx:109-124 | the entry goes in front of the stored list, a missing list counts as empty, an unparsable one is left as it was |
| Contact.Alert.Text | components/sections/contact.tsx:71-106 | of the four alerts, exactly the refused-post and network-error ones tell the visitor the message was saved locally |
| Contact.CorruptListStillSaysSaved | components/sections/contact.tsx:96-124 | with an unparsable stored list, a refused or failed post still claims a local save while storage keeps the unparsable list |
| Contact.SavedClaimHoldsUnlessCorrupt | components/sections/contact.tsx:96-124 | when the stored list parses or is missing, an alert claiming a local save comes with the new entry at the head of the stored list |
| Contact.Submit | components/sections/contact.tsx:68-136 | an incomplete form changes nothing; a complete one posts the payload, prepends the entry, empties the form and shows the alert for the network outcome |
| Contact.SubmitIgnoresNetwork | components/sections/contact.tsx:87-121 | the network outcome does not affect the stored list, the form or the payload |
| Contact.SubmitAddsOne | components/sections/contact.tsx:108-121 | a complete submission adds exactly one unread entry in front, the rest keeping their order |
| Login.Validate | components/sections/login.tsx:19-27 | an empty field gives "Please fill in all fields"; otherwise an email without `@` gives "Please enter a valid email"; otherwise no error |
| Login.Submit | components/sections/login.tsx:15-37 | the old error is cleared; a failing check sets its message, leaves `loading` as it was and writes nothing; otherwise, once the timer has fired, `loading` is false, the session `{email, isLoggedIn: true}` is stored and `onLogin` gets the entered email and password |
| Login.EmptyFieldsTakePrecedence | components/sections/login.tsx:19-27 | an empty field is reported before a missing `@` |
| Login.AnyPasswordAccepted | components/sections/login.tsx:29-36 | any non-empty password is accepted for an email with `@` |
| Portfolio.Select | components/sections/portfolio.tsx:84-86 | under "All" the whole table; under another filter exactly the items of that category, each as often as the table holds it, in table order |
| Portfolio.FilteredItems | components/sections/portfolio.tsx:11-86 | the filter over the site's table: a subsequence of the eight items, all of them under "All" |
| Portfolio.EveryCategoryShowsSomething | components/sections/portfolio.tsx:9-86 | every filter button shows at least one item |
| Portfolio.UnknownFilterShowsNothing | components/sections/portfolio.tsx:84-86 | a filter other than "All" naming no item's category shows nothing |
| Portfolio.EveryItemHasItsButton | components/sections/portfolio.tsx:9-86 | every item's category is a button other than "All", and that button shows it |
| Flows.SignInReachesDashboard | components/sections/login.tsx:29-36 | a successful sign-in stores the user and then hands the credentials to the same dashboard, which is authenticated as the entered email at once and again after a reload of that storage |
| Flows.SubmissionReachesDashboard | components/sections/contact.tsx:108-121 | a complete submission appears first and unread on the next dashboard load, raising both counters by one |

## Left out

- Rendering, styling, animation, hover state, toasts and alerts' display. The alert a submission chooses is modelled, not its display.
- `localStorage` and JSON are abstracted to slots. A blob that parses to a value of the wrong shape, such as `null` or a non-array inquiry list, is outside the model.
- The `POST /api/inquiries` call is reduced to its outcome (accepted, refused, or thrown, which includes an unreadable response body). Console logging is left out.
- The clock and locale formatting are left out. `Date.now()`, `toISOString()` and `toLocaleDateString` are parameters.
- `totalSales` is left out because it is floating-point rounding. `totalRevenue` is exact in the model. JavaScript numbers would agree for any list shorter than about 10^13 entries.
- The settings Reset button is left out. It reloads the settings from storage without a guard.
- The `isSubmitting`, `isSendingResponse` and `showPassword` flags are left out. The login form's `isLoading` flag is modelled (`LoginForm.loading`), but only as it stands after the timer fires: the intermediate state while the timer runs, with the flag raised, is left out.
- The model covers the form handlers as called. The email inputs are `type="email"` inside forms without `noValidate` (components/sections/login.tsx:75-84, components/sections/contact.tsx:178-196). A browser therefore refuses a click on Submit with a non-empty malformed email before the handler runs, and strips surrounding whitespace from email values. Neither this validation nor that sanitising is modelled. So `Login.Validate`'s missing-`@` branch and `Contact.Submit`'s acceptance of an address such as `abc` describe the handlers, not every click.
- Plain field setters are direct assignments and are left out. These are the contact form's email, company and message; the login form's email and password; the reply box; the settings email and notifications. The dashboard's navigation tab is also left out.
- The settings company input is commented out in the source. So nothing edits `Settings.company` except loading.
- Strings are sequences of Unicode code points, while JavaScript uses UTF-16 code units. Every class used here rejects, or strips, both halves of a surrogate pair, so the outcomes agree.
- A stored user whose `email` is null or missing is left out. The `??` fallback on it is therefore not modelled.
- navbar, hero, about, services, why-us, footer, the layout and the page are static content. The settings stub component has no behaviour.

=== FILE: chars.dfy ===
/** The character classes used by the site's input checks, JavaScript's
    `String.prototype.trim`, a full-string match `/^[...]*$/.test(s)` and a
    global strip `s.replace(/[^...]/g, "")` over one character class. */
module Chars {
  import Seqs

  predicate IsAsciiLetter(c: char) {
    ('A' <= c <= 'Z') || ('a' <= c <= 'z')
  }

  /** `[0-9]`, which is what `\d` means. */
  predicate IsDigit(c: char) {
    '0' <= c <= '9'
  }

  /** `\s` of an ECMAScript regular expression, and the set `trim` removes:
      the WhiteSpace and LineTerminator code points of ECMAScript. */
  predicate IsWhitespace(c: char) {
    || c == '\t' || c == '\n' || c == '\U{B}' || c == '\U{C}' || c == '\r' || c == ' '
    || c == '\U{A0}' || c == '\U{1680}' || ('\U{2000}' <= c <= '\U{200A}')
    || c == '\U{2028}' || c == '\U{2029}' || c == '\U{202F}' || c == '\U{205F}'
    || c == '\U{3000}' || c == '\U{FEFF}'
  }

  /** What a typed phone number may contain: `[0-9+\-\s()]`. */
  predicate IsPhoneSymbol(c: char) {
    IsDigit(c) || c == '+' || c == '-' || IsWhitespace(c) || c == '(' || c == ')'
  }

  /** The bracketed classes that appear in the site's patterns. */
  datatype CharClass =
    | LettersOrWhitespace   // [a-zA-Z\s], the contact form's name field
    | PhoneSymbols          // [0-9+\-\s()], the contact form's phone field
    | LettersOrSpace        // [A-Za-z ], the settings name field
    | Digits                // [0-9], i.e. \d, the settings phone field
    | Whitespace            // \s
  {
    predicate Admits(c: char) {
      match this
      case LettersOrWhitespace => IsAsciiLetter(c) || IsWhitespace(c)
      case PhoneSymbols => IsPhoneSymbol(c)
      case LettersOrSpace => IsAsciiLetter(c) || c == ' '
      case Digits => IsDigit(c)
      case Whitespace => IsWhitespace(c)
    }
  }

  /** `/^[cls]*$/.test(s)`: the whole string consists of admitted characters. */
  function Matches(cls: CharClass, s: string): (b: bool)
    ensures b <==> forall i | 0 <= i < |s| :: cls.Admits(s[i])
  {
    if |s| == 0 then true
    else
      assert forall i | 1 <= i < |s| :: s[i] == s[1..][i - 1];
      cls.Admits(s[0]) && Matches(cls, s[1..])
  }

  /** `s.replace(/[^cls]/g, "")`: every character outside the class is
      removed; the admitted ones are kept, all of them and in order. */
  function Strip(cls: CharClass, s: string): (r: string)
    ensures Matches(cls, r)
    ensures Seqs.IsSubsequence(r, s)
    ensures forall i | 0 <= i < |s| && cls.Admits(s[i]) :: multiset(r)[s[i]] == multiset(s)[s[i]]
    ensures multiset(r) <= multiset(s)
  {
    Seqs.FilterSpec(s, c => cls.Admits(c));
    Seqs.Filter(s, c => cls.Admits(c))
  }

  /** Stripping leaves a string alone exactly when it already matches. */
  lemma StripFixesExactlyMatches(cls: CharClass, s: string)
    ensures Strip(cls, s) == s <==> Matches(cls, s)
  {
    if Matches(cls, s) {
      Seqs.FilterAllPass(s, c => cls.Admits(c));
    }
  }

  /** Stripping twice is stripping once. */
  lemma StripIdempotent(cls: CharClass, s: string)
    ensures Strip(cls, Strip(cls, s)) == Strip(cls, s)
  {
    StripFixesExactlyMatches(cls, Strip(cls, s));
  }

  /** The number of whitespace characters at the start of `s`. */
  function LeadingWhitespace(s: string): (n: nat)
    ensures n <= |s|
    ensures forall i | 0 <= i < n :: IsWhitespace(s[i])
    ensures n == |s| || !IsWhitespace(s[n])
  {
    if |s| == 0 || !IsWhitespace(s[0]) then 0
    else
      assert forall i | 1 <= i < |s| :: s[i] == s[1..][i - 1];
      1 + LeadingWhitespace(s[1..])
  }

  /** The number of whitespace characters at the end of `s`. */
  function TrailingWhitespace(s: string): (n: nat)
    ensures n <= |s|
    ensures forall i | |s| - n <= i < |s| :: IsWhitespace(s[i])
    ensures n == |s| || !IsWhitespace(s[|s| - n - 1])
  {
    if |s| == 0 || !IsWhitespace(s[|s| - 1]) then 0
    else
      assert forall i | 0 <= i < |s| - 1 :: s[i] == s[..|s| - 1][i];
      1 + TrailingWhitespace(s[..|s| - 1])
  }

  /** `String.prototype.trim`: `s` without its leading and trailing
      whitespace. The result is the slice of `s` that starts at the first
      non-whitespace character; it is empty exactly when `s` is all
      whitespace, and otherwise it starts and ends with non-whitespace. */
  function Trim(s: string): (r: string)
    ensures |r| == 0 <==> Matches(Whitespace, s)
    ensures |r| > 0 ==> !IsWhitespace(r[0]) && !IsWhitespace(r[|r| - 1])
    ensures LeadingWhitespace(s) + |r| <= |s|
    ensures r == s[LeadingWhitespace(s)..LeadingWhitespace(s) + |r|]
    ensures forall i | LeadingWhitespace(s) + |r| <= i < |s| :: IsWhitespace(s[i])
  {
    var a := LeadingWhitespace(s);
    if a == |s| then []
    else
      var b := |s| - TrailingWhitespace(s);
      assert a < b;
      s[a..b]
  }

  /** Trimming twice is trimming once. */
  lemma TrimIdempotent(s: string)
    ensures Trim(Trim(s)) == Trim(s)
  {
    var r := Trim(s);
    if |r| > 0 {
      assert LeadingWhitespace(r) == 0;
      assert TrailingWhitespace(r) == 0;
    }
  }
}

=== FILE: contact.dfy ===
/** The public contact form: keystroke filters on the name and phone fields,
    and the submit handler, which posts the inquiry and then, whatever the
    server said, prepends it to the stored list as unread. */
module Contact {
  import opened Wrappers
  import opened Records
  import Chars

  datatype Form = Form(name: string, email: string, company: string, phone: string, message: string)

  const EmptyForm := Form("", "", "", "", "")

  /** How the `POST /api/inquiries` attempt ended: the server accepted it,
      the server answered with a non-ok status, or `fetch` or reading the
      JSON body threw. */
  datatype NetworkOutcome = Delivered | Refused | Unreachable

  /** `s` ends with `w`. */
  predicate EndsWith(s: string, w: string) {
    |w| <= |s| && s[|s| - |w|..] == w
  }

  /** An alert text tells the visitor their message was kept in the
      browser. */
  predicate ClaimsLocalSave(text: string) {
    EndsWith(text, "saved locally.")
  }

  /** The alert shown to the visitor. */
  datatype Alert = MissingFields | Sent | SavedAfterRefusal | SavedAfterNetworkError {
    /** The words of `alert(...)`; exactly the two failure alerts claim that
        the message was saved locally. */
    function Text(): (t: string)
      ensures ClaimsLocalSave(t) <==> this == SavedAfterRefusal || this == SavedAfterNetworkError
      ensures |t| > 0
    {
      match this
      case MissingFields => "Please fill in all required fields"
      case Sent => "Thank you! Your message has been sent."
      case SavedAfterRefusal => "There was an error sending your message. It has been saved locally."
      case SavedAfterNetworkError => "Network error — your message was saved locally."
    }
  }

  /** The JSON body posted to the server. */
  datatype Payload = Payload(
    name: string, email: string, phone: Option<string>, company: Option<string>, message: string)

  /** The form after submitting, the stored inquiry list, the posted body
      (None when nothing was posted) and the alert shown. */
  datatype Submission = Submission(
    form: Form, stored: Slot<seq<Inquiry>>, posted: Option<Payload>, alert: Alert)

  /** `value || null` on a string: the empty string becomes null. */
  function OrNull(s: string): (r: Option<string>)
    ensures r.None? <==> s == ""
    ensures r.Some? ==> r.value == s
  {
    if s == "" then None else Some(s)
  }

  /** `handleNameChange`: the edit is taken only if it consists of ASCII
      letters and whitespace; otherwise the form is left as it was. */
  function ChangeName(f: Form, typed: string): (r: Form)
    ensures (forall i | 0 <= i < |typed| :: Chars.IsAsciiLetter(typed[i]) || Chars.IsWhitespace(typed[i]))
            ==> r == f.(name := typed)
    ensures !(forall i | 0 <= i < |typed| :: Chars.IsAsciiLetter(typed[i]) || Chars.IsWhitespace(typed[i]))
            ==> r == f
  {
    if Chars.Matches(Chars.LettersOrWhitespace, typed) then f.(name := typed) else f
  }

  /** `handlePhoneChange`: the edit is taken only if it consists of digits,
      `+`, `-`, whitespace and parentheses; otherwise the form is left as it
      was. */
  function ChangePhone(f: Form, typed: string): (r: Form)
    ensures (forall i | 0 <= i < |typed| :: Chars.IsPhoneSymbol(typed[i])) ==> r == f.(phone := typed)
    ensures !(forall i | 0 <= i < |typed| :: Chars.IsPhoneSymbol(typed[i])) ==> r == f
  {
    if Chars.Matches(Chars.PhoneSymbols, typed) then f.(phone := typed) else f
  }

  /** The form's fields hold only what the keystroke filters let through. */
  predicate WellFormed(f: Form) {
    Chars.Matches(Chars.LettersOrWhitespace, f.name) && Chars.Matches(Chars.PhoneSymbols, f.phone)
  }

  /** Name and phone edits keep the form well formed, and the empty form is. */
  lemma EditsKeepWellFormed(f: Form, typed: string)
    requires WellFormed(f)
    ensures WellFormed(ChangeName(f, typed)) && WellFormed(ChangePhone(f, typed))
    ensures WellFormed(EmptyForm)
  {
  }

  /** The submit guard `!name || !email || !message`: a string is falsy
      exactly when it is empty, so whitespace alone passes. A freshly reset
      form never passes. */
  function Complete(f: Form): (ok: bool)
    ensures ok <==> |f.name| > 0 && |f.email| > 0 && |f.message| > 0
    ensures f == EmptyForm ==> !ok
  {
    f.name != "" && f.email != "" && f.message != ""
  }

  /** The entry saved locally, with the clock reading `now` as its id and
      the formatted date `date`. */
  function LocalEntry(f: Form, now: int, date: string): (e: Inquiry)
    ensures e.id == now && e.date == date
    ensures e.name == f.name && e.email == f.email && e.message == f.message
    ensures e.phone == OrNull(f.phone) && e.company == OrNull(f.company)
    ensures e.status == Unread && e.response == None && e.responseDate == None
  {
    Inquiry(now, date, f.name, f.email, OrNull(f.phone), OrNull(f.company), f.message,
            Unread, None, None)
  }

  /** The local save: the new entry goes in front of the stored list (a
      missing list counts as empty); an unparsable list makes the save throw,
      which is caught, and storage keeps what it had. */
  function Prepend(e: Inquiry, stored: Slot<seq<Inquiry>>): (r: Slot<seq<Inquiry>>)
    ensures stored.Corrupt? <==> r.Corrupt?
    ensures stored.Absent? ==> r == Stored([e])
    ensures stored.Stored? ==> r.Stored? && |r.value| == |stored.value| + 1
    ensures stored.Stored? ==> r.value[0] == e && r.value[1..] == stored.value
  {
    match stored
    case Absent => Stored([e])
    case Corrupt => Corrupt
    case Stored(xs) => Stored([e] + xs)
  }

  /** `handleSubmit`. An incomplete form is refused and nothing changes. A
      complete one is posted; the outcome picks the alert only; the entry is
      prepended unread and the form is emptied. */
  function Submit(f: Form, stored: Slot<seq<Inquiry>>, net: NetworkOutcome, now: int, date: string)
    : (r: Submission)
    ensures !Complete(f) ==>
              r.form == f && r.stored == stored && r.posted == None && r.alert == MissingFields
    ensures Complete(f) ==>
              && r.form == EmptyForm
              && r.posted == Some(Payload(f.name, f.email, OrNull(f.phone), OrNull(f.company), f.message))
              && r.stored == Prepend(LocalEntry(f, now, date), stored)
              && r.alert == (match net
                   case Delivered => Sent
                   case Refused => SavedAfterRefusal
                   case Unreachable => SavedAfterNetworkError)
  {
    if !Complete(f) then Submission(f, stored, None, MissingFields)
    else
      var payload := Payload(f.name, f.email, OrNull(f.phone), OrNull(f.company), f.message);
      var alert := match net
        case Delivered => Sent
        case Refused => SavedAfterRefusal
        case Unreachable => SavedAfterNetworkError;
      Submission(EmptyForm, Prepend(LocalEntry(f, now, date), stored), Some(payload), alert)
  }

  /** The network outcome decides the alert and nothing else. */
  lemma SubmitIgnoresNetwork(f: Form, stored: Slot<seq<Inquiry>>, a: NetworkOutcome,
                             b: NetworkOutcome, now: int, date: string)
    ensures Submit(f, stored, a, now, date).stored == Submit(f, stored, b, now, date).stored
    ensures Submit(f, stored, a, now, date).form == Submit(f, stored, b, now, date).form
    ensures Submit(f, stored, a, now, date).posted == Submit(f, stored, b, now, date).posted
  {
  }

  /** A complete submission adds exactly one entry, unread, in front of the
      existing ones, which keep their order. */
  lemma SubmitAddsOne(f: Form, xs: seq<Inquiry>, net: NetworkOutcome, now: int, date: string)
    requires Complete(f)
    ensures Submit(f, Stored(xs), net, now, date).stored.Stored?
    ensures |Submit(f, Stored(xs), net, now, date).stored.value| == |xs| + 1
    ensures Submit(f, Stored(xs), net, now, date).stored.value[1..] == xs
    ensures Submit(f, Stored(xs), net, now, date).stored.value[0].status == Unread
  {
  }

  /** The failure alerts promise a local save that an unparsable stored list
      prevents: the alert says "saved locally" and storage is left as it was. */
  lemma CorruptListStillSaysSaved(f: Form, net: NetworkOutcome, now: int, date: string)
    requires Complete(f) && net != Delivered
    ensures Submit(f, Corrupt, net, now, date).stored == Corrupt
    ensures ClaimsLocalSave(Submit(f, Corrupt, net, now, date).alert.Text())
  {
  }

  /** Whenever the stored list parses or is missing, an alert claiming a local
      save is truthful: the entry is in front of the stored list. */
  lemma SavedClaimHoldsUnlessCorrupt(f: Form, stored: Slot<seq<Inquiry>>, net: NetworkOutcome,
                                     now: int, date: string)
    requires !stored.Corrupt?
    requires ClaimsLocalSave(Submit(f, stored, net, now, date).alert.Text())
    ensures Submit(f, stored, net, now, date).stored.Stored?
    ensures Submit(f, stored, net, now, date).stored.value[0] == LocalEntry(f, now, date)
  {
  }
}

=== FILE: dashboard.dfy ===
/** The admin dashboard's state and its event handlers. Every handler that
    changes the inquiry list writes the whole list back to storage, so a
    reload from storage sees what the operator saw. */
module Dashboard {
  import opened Wrappers
  import opened Records
  import Chars
  import Inquiries
  import Seqs

  datatype Dashboard = Dashboard(
    authenticated: bool,
    inquiries: seq<Inquiry>,
    session: Option<Session>,
    selected: Option<Inquiry>,
    responseText: string,
    settings: Settings,
    store: Storage)

  /** The stored inquiry list is the one on screen. */
  predicate Persisted(d: Dashboard) {
    d.store.inquiries == Stored(d.inquiries)
  }

  /** `r` is `d` with only the inquiry list replaced and written back to
      storage: the session, the selection, the reply box, the settings and
      the other storage keys are as they were. */
  predicate OnlyListSaved(d: Dashboard, r: Dashboard) {
    r == d.(inquiries := r.inquiries, store := d.store.(inquiries := Stored(r.inquiries)))
  }

  /** The in-memory list after loading: a missing or unparsable blob reads as
      no inquiries. */
  function LoadInquiries(slot: Slot<seq<Inquiry>>): (xs: seq<Inquiry>)
    ensures slot.Stored? ==> xs == slot.value
    ensures !slot.Stored? ==> xs == []
  {
    match slot
    case Stored(v) => v
    case _ => []
  }

  /** The mount effect. A signed-in stored user authenticates the dashboard
      and lends its email to the settings; stored settings, when they parse,
      replace the settings wholesale; a missing or unparsable inquiry list
      becomes empty. The user blob is parsed outside any `try`, so an
      unparsable one makes the effect throw: None. */
  function Mount(store: Storage): (r: Option<Dashboard>)
    ensures r.None? <==> store.user.Corrupt?
    ensures r.Some? ==> r.value.store == store
    ensures r.Some? ==> r.value.selected == None && r.value.responseText == ""
    ensures r.Some? ==>
              (r.value.authenticated <==> store.user.Stored? && store.user.value.isLoggedIn)
    ensures r.Some? ==>
              r.value.session == (if r.value.authenticated then Some(store.user.value) else None)
    ensures r.Some? && store.inquiries.Stored? ==> r.value.inquiries == store.inquiries.value
    ensures r.Some? && !store.inquiries.Stored? ==> r.value.inquiries == []
    ensures r.Some? && store.settings.Stored? ==> r.value.settings == store.settings.value
    ensures r.Some? && !store.settings.Stored? && r.value.authenticated ==>
              r.value.settings == DefaultSettings.(email := store.user.value.email)
    ensures r.Some? && !store.settings.Stored? && !r.value.authenticated ==>
              r.value.settings == DefaultSettings
  {
    if store.user.Corrupt? then None
    else
      var signedIn := store.user.Stored? && store.user.value.isLoggedIn;
      var fromUser :=
        if signedIn then DefaultSettings.(email := store.user.value.email) else DefaultSettings;
      var settings := match store.settings
        case Stored(s) => s
        case _ => fromUser;
      Some(Dashboard(
        signedIn,
        LoadInquiries(store.inquiries),
        if signedIn then Some(store.user.value) else None,
        None,
        "",
        settings,
        store))
  }

  /** `handleLogin`: the dashboard becomes authenticated as the entered
      email. Its only caller is the login form, which writes the stored user
      just before handing the credentials over, so storage already holds
      the signed-in user and a reload agrees with the screen. */
  function Login(d: Dashboard, creds: Credentials): (r: Dashboard)
    requires d.store.user == Stored(Session(creds.email, true))
    ensures r.authenticated
    ensures Mount(r.store).Some? && Mount(r.store).value.authenticated
    ensures Mount(r.store).value.session == r.session
    ensures r.session == Some(Session(creds.email, true))
    ensures r.inquiries == d.inquiries && r.store == d.store && r.settings == d.settings
    ensures r.selected == d.selected && r.responseText == d.responseText
  {
    d.(authenticated := true, session := Some(Session(creds.email, true)))
  }

  /** `handleLogout`, also reached from the settings page's button after the
      same storage removal: the stored user and the session are gone. */
  function Logout(d: Dashboard): (r: Dashboard)
    ensures !r.authenticated && r.session == None
    ensures r.store == d.store.(user := Absent)
    ensures r.inquiries == d.inquiries && r.settings == d.settings
    ensures r.selected == d.selected && r.responseText == d.responseText
  {
    d.(authenticated := false, session := None, store := d.store.(user := Absent))
  }

  /** `markAsRead(id)` followed by the re-save. */
  function MarkRead(d: Dashboard, id: int): (r: Dashboard)
    ensures Persisted(r)
    ensures |r.inquiries| == |d.inquiries|
    ensures forall i | 0 <= i < |d.inquiries| && d.inquiries[i].id != id ::
              r.inquiries[i] == d.inquiries[i]
    ensures forall i | 0 <= i < |d.inquiries| && d.inquiries[i].id == id ::
              r.inquiries[i].status == Read && Inquiries.SameExceptStatus(d.inquiries[i], r.inquiries[i])
    ensures OnlyListSaved(d, r)
  {
    var xs := Inquiries.MarkRead(d.inquiries, id);
    d.(inquiries := xs, store := d.store.(inquiries := Stored(xs)))
  }

  /** `deleteInquiry(id)` followed by the re-save. */
  function Delete(d: Dashboard, id: int): (r: Dashboard)
    ensures Persisted(r)
    ensures forall i | 0 <= i < |r.inquiries| :: r.inquiries[i].id != id
    ensures forall i | 0 <= i < |d.inquiries| && d.inquiries[i].id != id ::
              multiset(r.inquiries)[d.inquiries[i]] == multiset(d.inquiries)[d.inquiries[i]]
    ensures multiset(r.inquiries) <= multiset(d.inquiries)
    ensures Seqs.IsSubsequence(r.inquiries, d.inquiries)
    ensures |r.inquiries| == |d.inquiries| - |Inquiries.WithId(d.inquiries, id)|
    ensures OnlyListSaved(d, r)
  {
    var xs := Inquiries.Delete(d.inquiries, id);
    Inquiries.DeleteLength(d.inquiries, id);
    d.(inquiries := xs, store := d.store.(inquiries := Stored(xs)))
  }

  /** `handleOpenInquiry`: the reply box starts from the stored reply, if any. */
  function Open(d: Dashboard, inq: Inquiry): (r: Dashboard)
    ensures r.selected == Some(inq)
    ensures inq.response.Some? ==> r.responseText == inq.response.value
    ensures inq.response.None? ==> r.responseText == ""
    ensures r == d.(selected := r.selected, responseText := r.responseText)
  {
    d.(selected := Some(inq), responseText := inq.response.GetOr(""))
  }

  /** `handleCloseInquiry`. */
  function Close(d: Dashboard): (r: Dashboard)
    ensures r.selected == None && r.responseText == ""
    ensures r == d.(selected := r.selected, responseText := r.responseText)
  {
    d.(selected := None, responseText := "")
  }

  /** `handleSendResponse` with the clock reading `now`. Nothing happens
      without a selection or when the reply is only whitespace; otherwise
      every entry carrying the selected id gets the trimmed reply, the time
      and the read status, and the reply box closes. */
  function SendResponse(d: Dashboard, now: string): (r: Dashboard)
    ensures d.selected.None? || |Chars.Trim(d.responseText)| == 0 ==> r == d
    ensures d.selected.Some? && !Chars.Matches(Chars.Whitespace, d.responseText) ==>
              && Persisted(r)
              && r.selected == None && r.responseText == ""
              && |r.inquiries| == |d.inquiries|
              && (forall i | 0 <= i < |d.inquiries| && d.inquiries[i].id != d.selected.value.id ::
                    r.inquiries[i] == d.inquiries[i])
              && (forall i | 0 <= i < |d.inquiries| && d.inquiries[i].id == d.selected.value.id ::
                    && r.inquiries[i].response == Some(Chars.Trim(d.responseText))
                    && r.inquiries[i].responseDate == Some(now)
                    && r.inquiries[i].status == Read
                    && Inquiries.SameExceptReply(d.inquiries[i], r.inquiries[i]))
              && OnlyListSaved(d, r.(selected := d.selected, responseText := d.responseText))
  {
    match d.selected
    case None => d
    case Some(sel) =>
      var text := Chars.Trim(d.responseText);
      if |text| == 0 then d
      else
        var xs := Inquiries.Respond(d.inquiries, sel.id, text, now);
        d.(inquiries := xs, store := d.store.(inquiries := Stored(xs)),
           selected := None, responseText := "")
  }

  /** The "Mark Read" button: marks the selected inquiry's id read. The
      open panel keeps the snapshot it was opened with. */
  function MarkSelectedRead(d: Dashboard): (r: Dashboard)
    ensures d.selected.None? ==> r == d
    ensures d.selected.Some? ==>
              && Persisted(r)
              && r.selected == d.selected && r.responseText == d.responseText
              && |r.inquiries| == |d.inquiries|
              && (forall i | 0 <= i < |d.inquiries| && d.inquiries[i].id != d.selected.value.id ::
                    r.inquiries[i] == d.inquiries[i])
              && (forall i | 0 <= i < |d.inquiries| && d.inquiries[i].id == d.selected.value.id ::
                    r.inquiries[i].status == Read
                    && Inquiries.SameExceptStatus(d.inquiries[i], r.inquiries[i]))
              && OnlyListSaved(d, r)
  {
    match d.selected
    case None => d
    case Some(sel) => MarkRead(d, sel.id)
  }

  /** The "Delete" button: deletes the selected inquiry's id and closes it.
      The reply text is left as it was. */
  function DeleteSelected(d: Dashboard): (r: Dashboard)
    ensures d.selected.None? ==> r == d
    ensures d.selected.Some? ==>
              && r.selected == None
              && r.responseText == d.responseText
              && r.inquiries == Delete(d, d.selected.value.id).inquiries
              && Persisted(r)
              && OnlyListSaved(d, r.(selected := d.selected))
  {
    match d.selected
    case None => d
    case Some(sel) => Delete(d, sel.id).(selected := None)
  }

  /** `handleSaveSettings`: the settings are stored, and a present session
      takes the settings' email; an absent session stays absent. */
  function SaveSettings(d: Dashboard): (r: Dashboard)
    ensures r.store == d.store.(settings := Stored(d.settings))
    ensures d.session.None? ==> r.session == None
    ensures d.session.Some? ==>
              r.session == Some(Session(d.settings.email, d.session.value.isLoggedIn))
    ensures r.authenticated == d.authenticated && r.settings == d.settings
    ensures r.inquiries == d.inquiries
    ensures r.selected == d.selected && r.responseText == d.responseText
  {
    d.(store := d.store.(settings := Stored(d.settings)),
       session := match d.session
         case Some(s) => Some(s.(email := d.settings.email))
         case None => None)
  }

  /** The settings name field: anything but ASCII letters and spaces is
      dropped from what was typed. */
  function EditName(d: Dashboard, typed: string): (r: Dashboard)
    ensures forall i | 0 <= i < |r.settings.name| ::
              Chars.IsAsciiLetter(r.settings.name[i]) || r.settings.name[i] == ' '
    ensures (forall i | 0 <= i < |typed| :: Chars.IsAsciiLetter(typed[i]) || typed[i] == ' ')
            ==> r.settings.name == typed
    ensures Seqs.IsSubsequence(r.settings.name, typed)
    ensures forall i | 0 <= i < |typed| && (Chars.IsAsciiLetter(typed[i]) || typed[i] == ' ') ::
              multiset(r.settings.name)[typed[i]] == multiset(typed)[typed[i]]
    ensures r.settings == d.settings.(name := r.settings.name)
    ensures r == d.(settings := r.settings)
  {
    Chars.StripFixesExactlyMatches(Chars.LettersOrSpace, typed);
    d.(settings := d.settings.(name := Chars.Strip(Chars.LettersOrSpace, typed)))
  }

  /** The settings phone field: anything but decimal digits is dropped from
      what was typed. */
  function EditPhone(d: Dashboard, typed: string): (r: Dashboard)
    ensures forall i | 0 <= i < |r.settings.phone| :: Chars.IsDigit(r.settings.phone[i])
    ensures (forall i | 0 <= i < |typed| :: Chars.IsDigit(typed[i])) ==> r.settings.phone == typed
    ensures Seqs.IsSubsequence(r.settings.phone, typed)
    ensures forall i | 0 <= i < |typed| && Chars.IsDigit(typed[i]) ::
              multiset(r.settings.phone)[typed[i]] == multiset(typed)[typed[i]]
    ensures r.settings == d.settings.(phone := r.settings.phone)
    ensures r == d.(settings := r.settings)
  {
    Chars.StripFixesExactlyMatches(Chars.Digits, typed);
    d.(settings := d.settings.(phone := Chars.Strip(Chars.Digits, typed)))
  }

  /** Re-entering what the name field shows changes nothing. */
  lemma EditNameIdempotent(d: Dashboard, typed: string)
    ensures EditName(EditName(d, typed), EditName(d, typed).settings.name) == EditName(d, typed)
  {
    Chars.StripIdempotent(Chars.LettersOrSpace, typed);
  }

  /** Re-entering what the phone field shows changes nothing. */
  lemma EditPhoneIdempotent(d: Dashboard, typed: string)
    ensures EditPhone(EditPhone(d, typed), EditPhone(d, typed).settings.phone) == EditPhone(d, typed)
  {
    Chars.StripIdempotent(Chars.Digits, typed);
  }

  /** Reloading after any persisting handler shows the same inquiry list. */
  lemma ReloadRestoresInquiries(d: Dashboard)
    requires Persisted(d)
    requires !d.store.user.Corrupt?
    ensures Mount(d.store).Some? && Mount(d.store).value.inquiries == d.inquiries
  {
  }

  /** Reloading after saving shows the saved settings. */
  lemma ReloadRestoresSettings(d: Dashboard)
    requires !d.store.user.Corrupt?
    ensures Mount(SaveSettings(d).store).Some?
    ensures Mount(SaveSettings(d).store).value.settings == d.settings
  {
  }

  /** After logging out, a reload shows the login screen. */
  lemma ReloadAfterLogout(d: Dashboard)
    ensures Mount(Logout(d).store).Some?
    ensures !Mount(Logout(d).store).value.authenticated
    ensures Mount(Logout(d).store).value.session == None
  {
  }

  /** The counters never show more unread inquiries than leads, and marking
      read, replying and deleting never raise the unread counter. */
  lemma CountersMonotone(d: Dashboard, id: int, now: string)
    ensures Inquiries.Stats(d.inquiries).unreadCount <= Inquiries.Stats(d.inquiries).totalLeads
    ensures Inquiries.UnreadCount(MarkRead(d, id).inquiries) <= Inquiries.UnreadCount(d.inquiries)
    ensures Inquiries.UnreadCount(SendResponse(d, now).inquiries) <= Inquiries.UnreadCount(d.inquiries)
    ensures Inquiries.UnreadCount(Delete(d, id).inquiries) <= Inquiries.UnreadCount(d.inquiries)
  {
    Inquiries.MarkReadUnread(d.inquiries, id);
    if d.selected.Some? && |Chars.Trim(d.responseText)| > 0 {
      var sel := d.selected.value.id;
      Inquiries.RespondUnread(d.inquiries, sel, Chars.Trim(d.responseText), now);
      Inquiries.MarkReadUnread(d.inquiries, sel);
    }
    Inquiries.DeleteUnread(d.inquiries, id);
  }
}

=== FILE: flows.dfy ===
/** How the three pages meet in local storage: what the login form and the
    contact form write is what the dashboard reads when it mounts. */
module Flows {
  import opened Wrappers
  import opened Records
  import Login
  import Contact
  import Dashboard
  import Inquiries

  /** A successful sign-in authenticates the dashboard as the entered email,
      both at once through `onLogin` and on any later reload: the form
      writes the stored user, then hands the credentials to the same
      dashboard, whose storage is the one the form wrote. */
  lemma SignInReachesDashboard(f: Login.LoginForm, d: Dashboard.Dashboard)
    requires Login.Validate(f.email, f.password).None?
    ensures Login.Submit(f, d.store).handedOver.Some?
    ensures var after := Login.Submit(f, d.store);
            var r := Dashboard.Login(d.(store := after.store), after.handedOver.value);
            && r.authenticated
            && r.session == Some(Session(f.email, true))
            && r.store == after.store
            && Dashboard.Mount(r.store).Some?
            && Dashboard.Mount(r.store).value.authenticated
            && Dashboard.Mount(r.store).value.session == Some(Session(f.email, true))
  {
  }

  /** A complete contact submission shows up on the next dashboard load as
      the first inquiry, unread, ahead of everything stored before, and
      raises both the lead and the unread counters by one. */
  lemma SubmissionReachesDashboard(f: Contact.Form, store: Storage, net: Contact.NetworkOutcome,
                                   now: int, date: string)
    requires Contact.Complete(f)
    requires !store.user.Corrupt? && !store.inquiries.Corrupt?
    ensures var after := store.(inquiries := Contact.Submit(f, store.inquiries, net, now, date).stored);
            && Dashboard.Mount(after).Some?
            && Dashboard.Mount(after).value.inquiries
               == [Contact.LocalEntry(f, now, date)] + Dashboard.LoadInquiries(store.inquiries)
            && Inquiries.Stats(Dashboard.Mount(after).value.inquiries).totalLeads
               == |Dashboard.LoadInquiries(store.inquiries)| + 1
            && Inquiries.Stats(Dashboard.Mount(after).value.inquiries).unreadCount
               == Inquiries.Stats(Dashboard.LoadInquiries(store.inquiries)).unreadCount + 1
  {
    var e := Contact.LocalEntry(f, now, date);
    Inquiries.PrependUnread(e, Dashboard.LoadInquiries(store.inquiries));
  }
}

=== FILE: inquiries.dfy ===
/** The dashboard's operations on the list of inquiries: each one is a `map`
    or a `filter` of the whole list keyed on `id`. Ids may repeat, so every
    statement speaks of all entries carrying the id. */
module Inquiries {
  import opened Wrappers
  import opened Records
  import Seqs

  /** Average revenue per lead, in rupees, as the demo dashboard assumes. */
  const RevenuePerLead: nat := 850

  predicate IsUnread(inq: Inquiry) {
    inq.status == Unread
  }

  /** `b` is `a` with at most its status changed. */
  predicate SameExceptStatus(a: Inquiry, b: Inquiry) {
    a.(status := b.status) == b
  }

  /** `b` is `a` with at most its status and response fields changed. */
  predicate SameExceptReply(a: Inquiry, b: Inquiry) {
    a.(status := b.status, response := b.response, responseDate := b.responseDate) == b
  }

  /** The filter predicate of `deleteInquiry`. */
  function HasOtherId(id: int): Inquiry -> bool {
    (inq: Inquiry) => inq.id != id
  }

  /** The indices of the entries carrying `id`. */
  function WithId(xs: seq<Inquiry>, id: int): set<nat> {
    set i: nat | i < |xs| && xs[i].id == id
  }

  /** The indices of the unread entries. */
  function UnreadIndices(xs: seq<Inquiry>): set<nat> {
    set i: nat | i < |xs| && xs[i].status == Unread
  }

  /** `markAsRead(id)`: every entry carrying `id` becomes read; nothing else
      changes. */
  function MarkRead(xs: seq<Inquiry>, id: int): (r: seq<Inquiry>)
    ensures |r| == |xs|
    ensures forall i | 0 <= i < |xs| && xs[i].id != id :: r[i] == xs[i]
    ensures forall i | 0 <= i < |xs| && xs[i].id == id ::
              r[i].status == Read && SameExceptStatus(xs[i], r[i])
  {
    seq(|xs|, i requires 0 <= i < |xs| =>
      if xs[i].id == id then xs[i].(status := Read) else xs[i])
  }

  /** `deleteInquiry(id)`: drops every entry carrying `id` and keeps every
      other entry, each occurrence of it, in the original order. */
  function Delete(xs: seq<Inquiry>, id: int): (r: seq<Inquiry>)
    ensures forall i | 0 <= i < |r| :: r[i].id != id
    ensures forall i | 0 <= i < |xs| && xs[i].id != id :: multiset(r)[xs[i]] == multiset(xs)[xs[i]]
    ensures multiset(r) <= multiset(xs)
    ensures Seqs.IsSubsequence(r, xs)
  {
    Seqs.FilterSpec(xs, HasOtherId(id));
    Seqs.Filter(xs, HasOtherId(id))
  }

  /** The list update of `handleSendResponse`: every entry carrying `id`
      records the reply `text`, the time `at` and becomes read; nothing else
      changes. */
  function Respond(xs: seq<Inquiry>, id: int, text: string, at: string): (r: seq<Inquiry>)
    ensures |r| == |xs|
    ensures forall i | 0 <= i < |xs| && xs[i].id != id :: r[i] == xs[i]
    ensures forall i | 0 <= i < |xs| && xs[i].id == id ::
              && r[i].response == Some(text) && r[i].responseDate == Some(at)
              && r[i].status == Read && SameExceptReply(xs[i], r[i])
  {
    seq(|xs|, i requires 0 <= i < |xs| =>
      if xs[i].id == id
      then xs[i].(response := Some(text), responseDate := Some(at), status := Read)
      else xs[i])
  }

  /** `inquiries.filter(inq => inq.status === "unread").length`. */
  function UnreadCount(xs: seq<Inquiry>): (n: nat)
    ensures n <= |xs|
  {
    |Seqs.Filter(xs, IsUnread)|
  }

  /** The dashboard's counters. `totalSales` is floating point and is not
      part of this record. */
  datatype Statistics = Statistics(totalLeads: nat, totalRevenue: nat, unreadCount: nat)

  /** The counters count every entry, price each at 850 and count exactly the
      unread entries, which can never outnumber the leads. */
  function Stats(xs: seq<Inquiry>): (s: Statistics)
    ensures s.totalLeads == |xs|
    ensures s.totalRevenue == RevenuePerLead * |xs|
    ensures s.unreadCount == |UnreadIndices(xs)|
    ensures s.unreadCount <= s.totalLeads
  {
    UnreadCountIsIndexCount(xs);
    Statistics(|xs|, RevenuePerLead * |xs|, UnreadCount(xs))
  }

  /** The unread counter is the number of positions holding an unread entry. */
  lemma UnreadCountIsIndexCount(xs: seq<Inquiry>)
    ensures UnreadCount(xs) == |UnreadIndices(xs)|
  {
    Seqs.FilterLength(xs, IsUnread);
    assert Seqs.IndicesWhere(xs, IsUnread) == UnreadIndices(xs);
  }

  /** Marking an id read twice is marking it once. */
  lemma MarkReadIdempotent(xs: seq<Inquiry>, id: int)
    ensures MarkRead(MarkRead(xs, id), id) == MarkRead(xs, id)
  {
  }

  /** After marking an id read, the unread entries are exactly those that
      were unread before and carry another id. */
  lemma MarkReadUnread(xs: seq<Inquiry>, id: int)
    ensures UnreadIndices(MarkRead(xs, id)) == UnreadIndices(xs) - WithId(xs, id)
    ensures UnreadCount(MarkRead(xs, id)) == |UnreadIndices(xs) - WithId(xs, id)|
    ensures UnreadCount(MarkRead(xs, id)) <= UnreadCount(xs)
  {
    var r := MarkRead(xs, id);
    assert UnreadIndices(r) == UnreadIndices(xs) - WithId(xs, id);
    UnreadCountIsIndexCount(r);
    UnreadCountIsIndexCount(xs);
  }

  /** Deleting an id removes exactly as many entries as carry it. */
  lemma DeleteLength(xs: seq<Inquiry>, id: int)
    ensures |Delete(xs, id)| == |xs| - |WithId(xs, id)|
  {
    var drop := (inq: Inquiry) => inq.id == id;
    Seqs.FilterLength(xs, HasOtherId(id));
    Seqs.PartitionSize(xs, drop, HasOtherId(id));
    assert Seqs.IndicesWhere(xs, drop) == WithId(xs, id);
  }

  /** Deleting never raises the unread counter. */
  lemma DeleteUnread(xs: seq<Inquiry>, id: int)
    ensures UnreadCount(Delete(xs, id)) <= UnreadCount(xs)
  {
    Seqs.FilterSubsequenceLength(Delete(xs, id), xs, IsUnread);
  }

  /** Marking entries read before deleting them makes no difference. */
  lemma {:induction false} DeleteAfterMarkRead(xs: seq<Inquiry>, id: int)
    ensures Delete(MarkRead(xs, id), id) == Delete(xs, id)
  {
    if |xs| > 0 {
      DeleteAfterMarkRead(xs[1..], id);
      assert MarkRead(xs, id)[1..] == MarkRead(xs[1..], id);
    }
  }

  /** A replied-to entry is already read: marking it read changes nothing. */
  lemma MarkReadAfterRespond(xs: seq<Inquiry>, id: int, text: string, at: string)
    ensures MarkRead(Respond(xs, id, text, at), id) == Respond(xs, id, text, at)
  {
  }

  /** Replying has the same effect on the unread counter as marking read. */
  lemma RespondUnread(xs: seq<Inquiry>, id: int, text: string, at: string)
    ensures UnreadIndices(Respond(xs, id, text, at)) == UnreadIndices(MarkRead(xs, id))
    ensures UnreadCount(Respond(xs, id, text, at)) == UnreadCount(MarkRead(xs, id))
  {
    var r := Respond(xs, id, text, at);
    assert UnreadIndices(r) == UnreadIndices(MarkRead(xs, id));
    UnreadCountIsIndexCount(r);
    UnreadCountIsIndexCount(MarkRead(xs, id));
  }

  /** Prepending an unread entry raises both counters by one. */
  lemma PrependUnread(e: Inquiry, xs: seq<Inquiry>)
    requires e.status == Unread
    ensures Stats([e] + xs).totalLeads == Stats(xs).totalLeads + 1
    ensures Stats([e] + xs).unreadCount == Stats(xs).unreadCount + 1
  {
    assert ([e] + xs)[1..] == xs;
  }
}

=== FILE: login.dfy ===
/** The mock sign-in form: two ordered checks, then the stored user is
    written and the credentials are handed to the dashboard. No password is
    ever compared with anything. */
module Login {
  import opened Wrappers
  import opened Records

  datatype LoginForm = LoginForm(email: string, password: string, error: string, loading: bool)

  const FillInAllFields := "Please fill in all fields"
  const EnterValidEmail := "Please enter a valid email"

  /** The form afterwards, storage afterwards, and what `onLogin` received. */
  datatype Attempt = Attempt(form: LoginForm, store: Storage, handedOver: Option<Credentials>)

  /** The first failing check, or None when both pass. */
  function Validate(email: string, password: string): (err: Option<string>)
    ensures err == Some(FillInAllFields) <==> email == "" || password == ""
    ensures err == Some(EnterValidEmail) <==> email != "" && password != "" && '@' !in email
    ensures err.None? <==> email != "" && password != "" && '@' in email
  {
    if email == "" || password == "" then Some(FillInAllFields)
    else if '@' !in email then Some(EnterValidEmail)
    else None
  }

  /** `handleSubmit`, including the effects of the 500 ms timer. The old
      error is cleared first; a failing check sets its message and writes
      nothing; otherwise the signed-in user is stored and `onLogin` gets the
      entered email and password. */
  function Submit(f: LoginForm, store: Storage): (r: Attempt)
    ensures r.form.email == f.email && r.form.password == f.password
    ensures r.handedOver.None? <==> Validate(f.email, f.password).Some?
    ensures r.handedOver.None? ==>
              r.form.error == Validate(f.email, f.password).value && r.store == store
              && r.form.loading == f.loading
    ensures r.handedOver.Some? ==>
              && r.form.error == ""
              && r.handedOver.value == Credentials(f.email, f.password)
              && r.store == store.(user := Stored(Session(f.email, true)))
              && !r.form.loading
  {
    var cleared := f.(error := "");
    match Validate(f.email, f.password)
    case Some(msg) => Attempt(cleared.(error := msg), store, None)
    case None =>
      Attempt(cleared.(loading := false), store.(user := Stored(Session(f.email, true))),
              Some(Credentials(f.email, f.password)))
  }

  /** An empty field is reported even when the email also lacks an `@`. */
  lemma EmptyFieldsTakePrecedence(f: LoginForm, store: Storage)
    requires f.email == "" || f.password == ""
    ensures Submit(f, store).form.error == FillInAllFields
    ensures Submit(f, store).handedOver == None && Submit(f, store).store == store
  {
  }

  /** Any non-empty password is accepted for any email with an `@`. */
  lemma AnyPasswordAccepted(email: string, password: string, f: LoginForm, store: Storage)
    requires '@' in email && password != ""
    requires f.email == email && f.password == password
    ensures Submit(f, store).handedOver == Some(Credentials(email, password))
    ensures Submit(f, store).store.user == Stored(Session(email, true))
  {
  }
}

=== FILE: portfolio.dfy ===
/** The portfolio grid's category filter over its fixed table of work. */
module Portfolio {
  import Seqs

  datatype Media = Image | Video
  datatype Size = Small | Medium | Large

  datatype Item = Item(id: nat, title: string, category: string, media: Media, color: string, size: Size)

  /** The filter buttons, in display order. */
  const Categories: seq<string> := ["All", "Branding", "Video", "Campaigns", "Events", "Social"]

  const Items: seq<Item> := [
    Item(1, "Brand Identity Design", "Branding", Image, "from-primary/30 to-secondary/30", Large),
    Item(2, "Product Launch Video", "Video", Video, "from-secondary/30 to-accent/30", Medium),
    Item(3, "Social Media Campaign", "Campaigns", Image, "from-accent/30 to-primary/30", Small),
    Item(4, "Corporate Event Coverage", "Events", Video, "from-primary/30 to-accent/30", Medium),
    Item(5, "Instagram Growth Strategy", "Social", Image, "from-secondary/30 to-primary/30", Small),
    Item(6, "Film Promotion Campaign", "Campaigns", Video, "from-accent/30 to-secondary/30", Large),
    Item(7, "Logo Design System", "Branding", Image, "from-primary/30 to-secondary/30", Small),
    Item(8, "Motion Graphics Reel", "Video", Video, "from-secondary/30 to-accent/30", Medium)
  ]

  /** The filter predicate: "All" shows everything, any other filter shows
      its own category. */
  function ShownUnder(filter: string): Item -> bool {
    (item: Item) => filter == "All" || item.category == filter
  }

  /** The category filter over any table: under "All" the whole table in
      order; under any other filter exactly the items of that category, in
      table order. */
  function Select(table: seq<Item>, filter: string): (r: seq<Item>)
    ensures filter == "All" ==> r == table
    ensures filter != "All" ==> forall i | 0 <= i < |r| :: r[i].category == filter
    ensures forall i | 0 <= i < |table| && table[i].category == filter :: table[i] in r
    ensures forall i | 0 <= i < |table| && (filter == "All" || table[i].category == filter) ::
              multiset(r)[table[i]] == multiset(table)[table[i]]
    ensures multiset(r) <= multiset(table)
    ensures forall i | 0 <= i < |r| :: r[i] in table
    ensures Seqs.IsSubsequence(r, table)
    ensures |r| <= |table|
  {
    var r := Seqs.Filter(table, ShownUnder(filter));
    Seqs.FilterSpec(table, ShownUnder(filter));
    Seqs.FilterKeepsPassing(table, ShownUnder(filter));
    Seqs.SubsequenceMembers(r, table);
    Seqs.FilterAllPass(table, ShownUnder("All"));
    r
  }

  /** `filteredItems`: the filter applied to the site's table, so never more
      than its eight items. */
  function FilteredItems(filter: string): (r: seq<Item>)
    ensures filter == "All" ==> r == Items
    ensures filter != "All" ==> forall i | 0 <= i < |r| :: r[i].category == filter
    ensures forall i | 0 <= i < |Items| && Items[i].category == filter :: Items[i] in r
    ensures forall i | 0 <= i < |r| :: r[i] in Items
    ensures Seqs.IsSubsequence(r, Items)
    ensures |r| <= 8
  {
    Select(Items, filter)
  }

  /** Every filter button shows at least one item. */
  lemma EveryCategoryShowsSomething(c: string)
    requires c in Categories
    ensures |FilteredItems(c)| > 0
  {
    var shown :=
      if c == "All" || c == "Branding" then 0
      else if c == "Video" then 1
      else if c == "Campaigns" then 2
      else if c == "Events" then 3
      else 4;
    assert c == "All" || Items[shown].category == c;
  }

  /** A filter other than "All" that names no item's category shows nothing. */
  lemma UnknownFilterShowsNothing(filter: string)
    requires filter != "All"
    requires forall i | 0 <= i < |Items| :: Items[i].category != filter
    ensures FilteredItems(filter) == []
  {
  }

  /** Every item's category is one of the buttons besides "All", and that
      button shows it. */
  lemma EveryItemHasItsButton(i: nat)
    requires i < |Items|
    ensures Items[i].category in Categories[1..]
    ensures Items[i] in FilteredItems(Items[i].category)
  {
    var c := Items[i].category;
    assert c in Categories[1..] by {
      assert Categories[1..] == ["Branding", "Video", "Campaigns", "Events", "Social"];
    }
    assert Items[i] in FilteredItems(c);
  }
}

=== FILE: records.dfy ===
/** The records the site keeps in the browser's local storage: inquiries,
    the operator's session and the settings profile. */
module Records {
  import opened Wrappers

  datatype Status = Read | Unread

  /** One contact-form submission. `id` is the millisecond timestamp of its
      creation and is not unique in general. `phone` is written by the
      contact form although the dashboard's own record type omits it; the
      dashboard's object spreads carry it along unchanged. */
  datatype Inquiry = Inquiry(
    id: int,
    date: string,
    name: string,
    email: string,
    phone: Option<string>,
    company: Option<string>,
    message: string,
    status: Status,
    response: Option<string>,
    responseDate: Option<string>)

  /** The mock signed-in identity. */
  datatype Session = Session(email: string, isLoggedIn: bool)

  /** What the login form hands to the dashboard. */
  datatype Credentials = Credentials(email: string, password: string)

  /** The operator's editable profile. */
  datatype Settings = Settings(
    name: string,
    email: string,
    company: string,
    phone: string,
    notifications: bool)

  /** The settings the dashboard starts from before anything is loaded. */
  const DefaultSettings := Settings("", "", "", "", true)

  /** One local-storage key as the code reading it sees it: missing (or the
      empty string), holding text that `JSON.parse` rejects, or holding a
      parsed value. */
  datatype Slot<T> = Absent | Corrupt | Stored(value: T)

  /** The three keys the site uses: `nini_user`, `nini_inquiries` and
      `nini_settings`. */
  datatype Storage = Storage(
    user: Slot<Session>,
    inquiries: Slot<seq<Inquiry>>,
    settings: Slot<Settings>)
}

=== FILE: seqs.dfy ===
/** Sequence facts shared by every list the site keeps: the `filter` of
    JavaScript arrays and the subsequence relation it establishes. */
module Seqs {

  /** `a` is obtained from `b` by deleting some elements, keeping the
      relative order of those that remain. */
  predicate IsSubsequence<T(==)>(a: seq<T>, b: seq<T>)
    decreases |b|
  {
    || |a| == 0
    || (&& |b| > 0
        && ((a[0] == b[0] && IsSubsequence(a[1..], b[1..])) || IsSubsequence(a, b[1..])))
  }

  /** Indices of the elements of `xs` that satisfy `p`. */
  function IndicesWhere<T>(xs: seq<T>, p: T -> bool): set<nat> {
    set i: nat | i < |xs| && p(xs[i])
  }

  /** `Array.prototype.filter`: the elements satisfying `keep`, in order. */
  function Filter<T(==)>(xs: seq<T>, keep: T -> bool): (r: seq<T>)
    ensures forall i | 0 <= i < |r| :: keep(r[i])
    ensures |r| <= |xs|
  {
    if |xs| == 0 then []
    else if keep(xs[0]) then [xs[0]] + Filter(xs[1..], keep)
    else Filter(xs[1..], keep)
  }

  /** Filtering keeps the relative order of what it keeps, keeps every
      occurrence of each element that passes, and nothing else. */
  lemma FilterSpec<T>(xs: seq<T>, keep: T -> bool)
    ensures IsSubsequence(Filter(xs, keep), xs)
    ensures multiset(Filter(xs, keep)) <= multiset(xs)
    ensures forall i | 0 <= i < |xs| && keep(xs[i]) ::
              multiset(Filter(xs, keep))[xs[i]] == multiset(xs)[xs[i]]
  {
    FilterIsSubsequence(xs, keep);
    FilterMultisetBound(xs, keep);
    FilterMultiplicity(xs, keep);
  }

  /** What a filter keeps stays in its original relative order. */
  lemma {:induction false} FilterIsSubsequence<T>(xs: seq<T>, keep: T -> bool)
    ensures IsSubsequence(Filter(xs, keep), xs)
  {
    if |xs| > 0 {
      FilterIsSubsequence(xs[1..], keep);
      if keep(xs[0]) {
        var r := Filter(xs, keep);
        assert r[0] == xs[0] && r[1..] == Filter(xs[1..], keep);
      }
    }
  }

  /** A filter only drops elements: it never adds an occurrence. */
  lemma {:induction false} FilterMultisetBound<T>(xs: seq<T>, keep: T -> bool)
    ensures multiset(Filter(xs, keep)) <= multiset(xs)
  {
    if |xs| > 0 {
      FilterMultisetBound(xs[1..], keep);
      assert xs == [xs[0]] + xs[1..];
      assert multiset(xs) == multiset{xs[0]} + multiset(xs[1..]);
    }
  }

  /** Every occurrence of an element that passes is kept. */
  lemma {:induction false} FilterMultiplicity<T>(xs: seq<T>, keep: T -> bool)
    ensures forall x | keep(x) :: multiset(Filter(xs, keep))[x] == multiset(xs)[x]
  {
    if |xs| > 0 {
      FilterMultiplicity(xs[1..], keep);
      assert xs == [xs[0]] + xs[1..];
      assert multiset(xs) == multiset{xs[0]} + multiset(xs[1..]);
      if keep(xs[0]) {
        assert multiset(Filter(xs, keep)) == multiset{xs[0]} + multiset(Filter(xs[1..], keep));
      }
    }
  }

  /** Every element of a subsequence occurs in the sequence it comes from. */
  lemma {:induction false} SubsequenceMembers<T>(a: seq<T>, b: seq<T>)
    requires IsSubsequence(a, b)
    ensures forall x :: x in a ==> x in b
    decreases |b|
  {
    if |a| > 0 {
      if a[0] == b[0] && IsSubsequence(a[1..], b[1..]) {
        SubsequenceMembers(a[1..], b[1..]);
        assert forall x :: x in a ==> x == a[0] || x in a[1..];
      } else {
        SubsequenceMembers(a, b[1..]);
      }
    }
  }

  /** Filtering a sequence whose elements all pass returns it unchanged. */
  lemma {:induction false} FilterAllPass<T>(xs: seq<T>, keep: T -> bool)
    requires forall i | 0 <= i < |xs| :: keep(xs[i])
    ensures Filter(xs, keep) == xs
  {
    if |xs| > 0 {
      FilterAllPass(xs[1..], keep);
      assert [xs[0]] + xs[1..] == xs;
    }
  }

  /** Filtering distributes over appending one element at the end. */
  lemma {:induction false} FilterSnoc<T>(xs: seq<T>, y: T, keep: T -> bool)
    ensures Filter(xs + [y], keep) == Filter(xs, keep) + (if keep(y) then [y] else [])
  {
    var tail := if keep(y) then [y] else [];
    if |xs| == 0 {
      assert xs + [y] == [y];
      assert [y][1..] == [];
    } else {
      var head := if keep(xs[0]) then [xs[0]] else [];
      var z := xs + [y];
      assert z[0] == xs[0];
      assert z[1..] == xs[1..] + [y];
      var f := Filter(xs[1..], keep);
      assert Filter(z, keep) == head + Filter(xs[1..] + [y], keep);
      FilterSnoc(xs[1..], y, keep);
      assert Filter(xs, keep) == head + f;
      assert head + (f + tail) == (head + f) + tail;
    }
  }

  /** The length of a filtered sequence is the number of indices whose
      element passes. */
  lemma {:induction false} FilterLength<T>(xs: seq<T>, keep: T -> bool)
    ensures |Filter(xs, keep)| == |IndicesWhere(xs, keep)|
    decreases |xs|
  {
    if |xs| > 0 {
      var init := xs[..|xs| - 1];
      var last := xs[|xs| - 1];
      assert xs == init + [last];
      FilterSnoc(init, last, keep);
      FilterLength(init, keep);
      IndicesSnoc(init, last, keep);
    }
  }

  /** Appending one element adds its index exactly when it satisfies `p`. */
  lemma IndicesSnoc<T>(xs: seq<T>, y: T, p: T -> bool)
    ensures |IndicesWhere(xs + [y], p)| == |IndicesWhere(xs, p)| + (if p(y) then 1 else 0)
  {
    var before := IndicesWhere(xs, p);
    var z := xs + [y];
    assert forall i: nat | i < |xs| :: z[i] == xs[i];
    if p(y) {
      assert IndicesWhere(z, p) == before + {|xs|};
      assert |xs| !in before;
    } else {
      assert IndicesWhere(z, p) == before;
    }
  }

  /** The indices that satisfy `p` and those that satisfy its negation `q`
      together number the length of the sequence. */
  lemma {:induction false} PartitionSize<T>(xs: seq<T>, p: T -> bool, q: T -> bool)
    requires forall x :: q(x) == !p(x)
    ensures |IndicesWhere(xs, p)| + |IndicesWhere(xs, q)| == |xs|
    decreases |xs|
  {
    if |xs| > 0 {
      var init := xs[..|xs| - 1];
      var last := xs[|xs| - 1];
      assert xs == init + [last];
      PartitionSize(init, p, q);
      IndicesSnoc(init, last, p);
      IndicesSnoc(init, last, q);
    }
  }

  /** Filtering a subsequence never yields more than filtering the whole. */
  lemma {:induction false} FilterSubsequenceLength<T>(a: seq<T>, b: seq<T>, keep: T -> bool)
    requires IsSubsequence(a, b)
    ensures |Filter(a, keep)| <= |Filter(b, keep)|
    decreases |b|
  {
    if |a| > 0 {
      if a[0] == b[0] && IsSubsequence(a[1..], b[1..]) {
        FilterSubsequenceLength(a[1..], b[1..], keep);
      } else {
        FilterSubsequenceLength(a, b[1..], keep);
      }
    }
  }

  /** Every element that passes the filter appears in its result. */
  lemma FilterKeepsPassing<T>(xs: seq<T>, keep: T -> bool)
    ensures forall i | 0 <= i < |xs| && keep(xs[i]) :: xs[i] in Filter(xs, keep)
  {
    FilterSpec(xs, keep);
    forall i | 0 <= i < |xs| && keep(xs[i])
      ensures xs[i] in Filter(xs, keep)
    {
      assert xs[i] in multiset(xs);
    }
  }
}

=== FILE: wrappers.dfy ===
/** The optional value used wherever the dashboard stores `null` or leaves a
    field `undefined`. */
module Wrappers {

  datatype Option<+T> = None | Some(value: T) {

    /** The value, or `default` for None: the `??` operator of the dashboard. */
    function GetOr(default: T): T {
      match this
      case Some(v) => v
      case None => default
    }
  }
}
